=== FILE: README.md ===
# eventgenie-agents: the agent core in Dafny

eventgenie-agents is an event-planning service. A "maestro" agent reads a
user's message and works out what the user wants: a plan, a budget (a
*smeta*, "смета" in Russian), both, or nothing it recognises. It then sends
the event's data to a planning chain, a budget chain or both. Each chain asks
a GigaChat model for a JSON document. It strips Markdown code fences from the
answer and parses the rest. When anything goes wrong, it returns a built-in
fallback document instead. There is one exception: the budget chain turns an
authentication failure of the model call into an error.

This project models that core as pure functions and proves what it promises.
The model call and `json.loads` are oracles, that is, function-typed
parameters:

- `llm: Prompt -> LlmReply`: the chain's result, or the exception it raised.
- `parse: string -> ParseResult<D>`: a decoded document of an unconstrained
  type `D`, or a decode error.
- The maestro's classifier call is `string -> TextReply`.

Modules, in dependency order:

| module | file | contents |
|---|---|---|
| `Wrappers` | wrappers.dfy | `Option`, and `Result` in place of exceptions |
| `Text` | text.dfy | Python's `in`, `str.split`, `str.strip`, `str.lower` and `str(int)` on `seq<char>` |
| `Fences` | fences.dfy | the code-fence cleaning that both chains share |
| `Llm` | llm.dfy | what an oracle can return; `dict.get` on the chain's result |
| `Events` | events.dfy | the event-data dictionary, with every key optional |
| `BudgetChain` | budget_chain.dfy | `calculate_budget` and `_fallback_budget` |
| `PlanningChain` | planning_chain.dfy | `generate_plan` and `_fallback_plan` |
| `Maestro` | maestro.dfy | `_classify_intent`, `_extract_event_data`, `process_request` |

Amounts are exact `real`s. Dictionary keys that may be missing are `Option`s.
The planning prompt's `target_audience` has three states: the key is missing,
the key is present as `None`, or the key holds a string. The default
"Не указано" applies only in the first state.

## Model

| member | source | states |
|---|---|---|
| Text.IndexOf | src/chains/budget_chain.py:130 | `pat in s`: the result is the first index at which `pat` occurs, and no occurrence exists when it is `None` |
| Text.Split | src/chains/budget_chain.py:131 | `str.split` with a non-empty separator: at least one piece; two or more exactly when the separator occurs; no piece contains the separator |
| Text.SplitJoin | src/chains/budget_chain.py:131 | joining the pieces of a split with the separator gives back the original text |
| Text.SplitSecond | src/chains/budget_chain.py:131 | `split(sep)[1]` is the text between the first occurrence of the separator and the next one |
| Text.Strip | src/chains/budget_chain.py:131 | after `strip()` neither end of the text is whitespace, as Python's `isspace` defines it |
| Text.StripTrims | src/chains/budget_chain.py:131 | `strip()` removes only whitespace, and only from the two ends: the result is a slice of the input with nothing but whitespace on either side |
| Text.Lower | src/agents/maestro.py:132 | `str.lower()` keeps the length and lower-cases each character on its own |
| Text.LowerAsciiTable | src/agents/maestro.py:132 | each of the 26 Latin capitals becomes the small letter at the same position of the alphabet |
| Text.LowerLatin1Table | src/chains/budget_chain.py:150 | each Latin-1 capital from À to Þ, except ×, becomes its small letter from à to þ |
| Text.LowerCyrillicTable | src/agents/maestro.py:132 | each Cyrillic capital from А to Я becomes the small letter at the same position, а to я |
| Text.LowerCyrillicExtraTable | src/agents/maestro.py:132 | each Cyrillic capital from Ѐ to Џ becomes its small letter from ѐ to џ |
| Text.LowerLeavesOthers | src/agents/maestro.py:132 | every character outside those capital alphabets is left unchanged |
| Text.LowerIdempotent | src/agents/maestro.py:112 | lower-casing an already lower-cased text changes nothing |
| Text.LowerKnownWords | src/agents/maestro.py:118-136 | the words tested in lower case come out of their capitalised spellings: "UNAUTHORIZED" and "Unauthorized", "ПЛАН" and "План", "СМЕТ" and "БЮДЖЕТ"; an intent name is unchanged |
| Text.NatToDecimalValue | src/chains/budget_chain.py:184 | the decimal digits written for the guest count read back as the same number |
| Fences.CleanJsonResponse | src/chains/budget_chain.py:130-133 | text without a fence passes through unchanged; with a fence, the cleaned text contains no fence and has no surrounding whitespace |
| Fences.CleanIdempotent | src/chains/planning_chain.py:98-101 | cleaning a cleaned answer changes nothing |
| Fences.JsonFenceBody | src/chains/budget_chain.py:130-131 | after a `json`-tagged opener, the answer is the stripped text up to the first fence that follows. This holds when that fence does not overlap a later tagged opener |
| Fences.JsonFenceOverlap | src/chains/budget_chain.py:131 | counterexample to the plain "up to the next fence" reading: for ```` ```jsonX````json ```` the answer is ``X` `` and not `X` |
| Fences.FirstFenceBeforeNextOpener | src/chains/budget_chain.py:131 | cutting the remainder at its next `json`-tagged opener keeps its first fence when that fence ends before the opener |
| Fences.JsonFenceUnclosed | src/chains/budget_chain.py:130-131 | a tagged opener with no fence after it leaves everything after the opener, stripped |
| Fences.BareFenceBody | src/chains/budget_chain.py:132-133 | without a `json` tag, the answer is the stripped text between the first fence and the next one |
| Llm.GetOrEmpty | src/chains/budget_chain.py:105 | `d.get(key, "")`: the value of the first entry with the key, or the empty string when no entry has it |
| BudgetChain.BudgetPromptFields | src/chains/budget_chain.py:82-89 | each prompt input is the event's value for its key; missing name, type, date and location become "", missing guest count and limit become 0 |
| BudgetChain.FirstLongString | src/chains/budget_chain.py:107-112 | the last-resort scan returns the first entry whose value is a string longer than ten characters, or none when no entry has one |
| BudgetChain.PickResponseText | src/chains/budget_chain.py:102-119 | a dictionary result gives the first truthy value of "text", "output" and "result". Failing that it gives the first string longer than ten characters, and failing both the empty text. A string result is used as it is and any other object as its `str()` |
| BudgetChain.IsAuthFailure | src/chains/budget_chain.py:150 | a failure is fatal exactly when "403" or "Forbidden" occurs in the message, or "unauthorized" occurs in its lower-cased form |
| BudgetChain.Status401IsNotFatal | src/chains/budget_chain.py:150 | a status code alone is not recognised: for every message without the digit 3, such as "HTTP 401", the failure is fatal exactly when "Forbidden" or "unauthorized" is matched |
| BudgetChain.UpperCaseForbiddenIsNotFatal | src/chains/budget_chain.py:150 | "Forbidden" is matched case-sensitively: every message of capitals and spaces, such as "FORBIDDEN", is fatal exactly when it contains "UNAUTHORIZED" |
| BudgetChain.CapitalsOccurAt | src/chains/budget_chain.py:150 | in a text of capitals and spaces, "unauthorized" occurs in the lower-cased text exactly at the positions where "UNAUTHORIZED" occurs |
| BudgetChain.CapitalisedUnauthorizedIsFatal | src/chains/budget_chain.py:150 | "unauthorized" is matched in any capitalisation: every message containing a word that lower-cases to it is fatal |
| BudgetChain.AuthFailureSurvivesWrapping | src/chains/budget_chain.py:146-150 | a message that counts as an authentication failure still counts once text is put before and after it |
| BudgetChain.CalculateBudget | src/chains/budget_chain.py:73-164 | raises, with the fixed message, exactly when the model call raised an exception that is not a JSON decode error and whose message marks an authentication failure. Returns the parsed document exactly when a non-empty text was picked and parsed. Otherwise returns the fallback budget for the event |
| BudgetChain.RaisedDecodeErrorFallsBack | src/chains/budget_chain.py:140-144 | a JSON decode error raised by the model call gives the fallback budget, whatever its message says |
| BudgetChain.EmptyAnswerSkipsParser | src/chains/budget_chain.py:121-124 | an empty answer never reaches the parser |
| BudgetChain.ParsedAnswerIgnoresLimit | src/chains/budget_chain.py:136-138 | a parsed answer is returned unchanged; nothing checks it against the budget limit |
| BudgetChain.SumOfNine | src/chains/budget_chain.py:194 | the total of nine items is the sum of their nine amounts |
| BudgetChain.FallbackItems | src/chains/budget_chain.py:171-192 | nine items in a fixed category order. Each amount is its own share of the limit (25, 15, 10, 10, 12, 8 and 10 percent) or its own per-guest rate (2500 for catering, 500 for gifts). The descriptions are fixed, except catering and gifts, whose descriptions name the guest count in decimal |
| BudgetChain.FallbackBudgetFor | src/chains/budget_chain.py:171-204 | the items of FallbackItems and their sum as total. The two per-guest items come to 3000 per guest and the other seven to 90% of the limit, so the total is 0.9·limit + 3000·guests. The analysis and recommendations are fixed |
| BudgetChain.FallbackBudget | src/chains/budget_chain.py:166-169 | the fallback's total for an event, with 100 guests and a limit of 1,000,000 standing in for missing keys |
| BudgetChain.FallbackBudgetItems | src/chains/budget_chain.py:166-192 | the fallback's items for an event are those for its guest count and limit after defaults: without a guest count, catering is 250,000 and gifts 50,000; without a limit, the venue is 250,000; a given guest count gives 2500 and 500 per guest, and a given limit gives the venue a quarter of it |
| BudgetChain.FallbackDefaultsExceedLimit | src/chains/budget_chain.py:168-169 | with neither guests nor limit given, the fallback totals 1,200,000, above its own assumed limit of 1,000,000 |
| BudgetChain.FallbackOvershootIff | src/chains/budget_chain.py:172-194 | the fallback exceeds the limit exactly when 3000·guests exceeds a tenth of the limit |
| BudgetChain.FallbackDependsOnGuestsAndLimit | src/chains/budget_chain.py:166-169 | two events with the same guest count and limit, after defaults, get the same fallback |
| BudgetChain.PromptAndFallbackDefaultsDiffer | src/chains/budget_chain.py:87-88 | for missing keys the model is told 0 guests and a limit of 0, while the fallback assumes 100 and 1,000,000 |
| PlanningChain.PlanPromptFor | src/chains/planning_chain.py:77-86 | each prompt input present in the event reaches the model unchanged, including an audience that holds a string |
| PlanningChain.PlanPromptDefaults | src/chains/planning_chain.py:77-86 | missing name, type, date, location and format reach the model as "", missing guest count and budget as 0, and a missing audience as "Не указано". An audience present as `None` is passed on as `None` |
| PlanningChain.PlanResponseText | src/chains/planning_chain.py:95-103 | `result.get("text", "")`: a dictionary without "text" gives the empty string, one whose "text" is a string gives that string, and anything else raises |
| PlanningChain.FallbackPlan | src/chains/planning_chain.py:110-126 | four contiguous phases whose times read "09:00 - 10:00", "10:00 - 12:00", "12:00 - 13:00" and "13:00 - 17:00". Three tasks with strictly decreasing deadlines 60, 45 and 30, and priorities HIGH, HIGH, MEDIUM. A three-step critical path and one recommendation |
| PlanningChain.FallbackPlanIgnoresEvent | src/chains/planning_chain.py:110-112 | the fallback plan is the same for every event |
| PlanningChain.GeneratePlan | src/chains/planning_chain.py:71-108 | never raises. A raised model call gives the fallback plan. The parsed document is returned exactly when the result is a dictionary whose "text" is a string that parses after cleaning |
| PlanningChain.MissingTextIsParsed | src/chains/planning_chain.py:95-103 | a result without "text" is parsed as the empty string rather than skipped |
| Maestro.IntentNamesRoundTrip | src/agents/maestro.py:115 | intent names and intents correspond one to one, and the valid answers are exactly the four names |
| Maestro.IntentOnInvalidAnswer | src/agents/maestro.py:116-125 | the keyword rule for an invalid answer, as an if-and-only-if for each of the four intents |
| Maestro.IntentOnModelError | src/agents/maestro.py:129-140 | the keyword rule for a failed call, as an if-and-only-if for each of the four intents |
| Maestro.KeywordRulesDiverge | src/agents/maestro.py:118-140 | the two keyword rules disagree exactly on messages that mention "план" and "бюджет" but not "смет" |
| Maestro.ClassifyIntent | src/agents/maestro.py:95-140 | the result is always one of the four names. A valid stripped, lower-cased answer is taken as it is; otherwise the matching keyword rule decides |
| Maestro.ExtractEventData | src/agents/maestro.py:142-158 | the context's event data when present; otherwise the default event "Новое событие", a conference on 2025-12-31 in Москва with 100 guests, budget and limit 1,000,000, and no audience or format |
| Maestro.ExtractIgnoresMessage | src/agents/maestro.py:142-158 | the message is never read: two messages with the same context give the same event |
| Maestro.DefaultEventThroughChains | src/agents/maestro.py:150-158 | the default event yields a fallback budget of 1,200,000, over its own limit, and a plan prompt with the audience "Не указано" |
| Maestro.PlanOnly | src/agents/maestro.py:40-49 | "create_event_plan" calls only the planning agent, never fails, reports "planning" with confidence 0.95, and its results are the planning chain's output for the event |
| Maestro.BudgetOnly | src/agents/maestro.py:51-60 | "calculate_budget" calls only the finance agent, reports "finance" with confidence 0.95, fails exactly when the budget chain does, and otherwise its results are the budget chain's output |
| Maestro.PlanThenBudget | src/agents/maestro.py:62-78 | "full_event_planning" calls planning, then finance, reports both with confidence 0.95, fails exactly when the budget chain does, and otherwise returns the plan and the budget the two chains produced |
| Maestro.Route | src/agents/maestro.py:40-89 | each intent calls its agents in order, planning before finance for the full plan, and returns those agents' outputs as its results. The agents listed are the agents called. Confidence is 0.95 exactly when an agent ran. Only the finance chain's authentication failure escapes |
| Maestro.ProcessRequest | src/agents/maestro.py:20-93 | the reported intent is the classifier's and always valid. The chains run on the event extracted from the message's context. Each known intent calls its agents and returns their outputs with confidence 0.95; "unknown" calls nobody, never fails, and returns the fixed message with confidence 0. The request fails exactly when the finance agent ran and its chain raised the authentication error |
| Maestro.AuthFailureOnlyFatalForBudget | src/agents/maestro.py:62-68 | the same authentication failure fails the budget chain, only sends the plan chain to its fallback, and fails the full request |

## Left out

- Prompt rendering: the prompt templates, and the string formatting of the
  inputs into them. The model oracle receives the input record, or the user's
  message for the classifier.
- Logging, `async`/`await`, the GigaChat client, the LangChain objects and
  the user id. The user id is only logged.
- The HTTP routes, the application entry point and the pydantic request
  models. Outside this core, the routes build the event dictionaries the
  chains receive.
- `PlanningAgent.generate_event_plan` and `FinanceAgent.calculate_budget`.
  Each logs, calls its chain and re-raises whatever the chain raised, so the
  model calls the chains directly.
- Floating point: amounts and the 0.95 and 0.0 confidences are exact
  reals. The fallback's float rounding and `float(budget_limit)` on a
  non-numeric value are not modelled.
- Text.Lower: lower-cases ASCII, Latin-1 and the basic Cyrillic block
  (U+0400 to U+042F) only. Python's `str.lower` covers all of Unicode,
  including characters that lower-case to two code points.
- BudgetChain.FallbackBudget: a guest count or limit that is `None`,
  non-integer or non-numeric. Such values come only from event data in a
  free-form request context, where a key may hold any JSON value; the event
  record holds an integer guest count and a numeric limit. A `None` guest
  count or limit, or a non-numeric limit, makes `_fallback_budget` raise
  inside `float(...)` or the per-guest products. A string guest count makes
  its `sum` raise a `TypeError`. A fractional guest count such as 150.5 gives
  fractional per-guest amounts and "150.5" in the descriptions. Because the
  fallback runs inside `calculate_budget`'s exception handlers, those
  exceptions escape `calculate_budget` although they are no authentication
  failure.
- BudgetChain.CalculateBudget: a picked value that is truthy but not a
  string (a list, a number) makes `calculate_budget` fail in the fence check or in
  `json.loads`. The model sends that case to the fallback without naming the
  exception, because no such exception message mentions authentication.
- PlanningChain.GeneratePlan: a result that is a string, or has a "text"
  entry that is not a string, raises inside the `try` and is modelled as
  going straight to the fallback.
- Fences.JsonFenceBody: the "text up to the next fence" reading holds only
  under its side condition. Fences.JsonFenceOverlap shows the input where
  it fails, and CleanJsonResponse itself follows the literal
  `split`/`split`/`strip` code.
- Maestro.ExtractEventData: a context whose "event_data" is not a
  dictionary is not modelled. An empty context dictionary behaves like a
  missing one, which the model reflects.

=== FILE: budget_chain.dfy ===
/**
 The finance agent's chain: ask the model for an itemised budget, take the text
 out of whatever LangChain returned, strip code fences, parse it as JSON and
 return the parsed document as it is. An empty answer, a JSON decode error or a
 model failure switches to a fixed fallback budget, except a model failure whose
 message names an authentication problem, which is raised to the caller.
 */
module BudgetChain {
  import opened Wrappers
  import opened Text
  import opened Fences
  import opened Llm
  import opened Events

  /** One budget line (`BudgetItem` of the service's response model). */
  datatype BudgetItem = BudgetItem(category: string, plannedAmount: real, description: string)

  /** A budget document as the fallback builds it. */
  datatype Budget = Budget(items: seq<BudgetItem>, totalAmount: real, analysis: string, recommendations: seq<string>)

  /** The values the budget prompt template is filled with. */
  datatype BudgetPrompt = BudgetPrompt(
    eventName: string,
    eventType: string,
    eventDate: string,
    location: string,
    expectedGuests: int,
    budgetLimit: real)

  /** What `calculate_budget` returns when it does not raise: the model's parsed document, or the fallback. */
  datatype BudgetOutcome<+D> = FromModel(doc: D) | UsedFallback(budget: Budget)

  /** The response text chosen from LangChain's result; a non-string value can be chosen too. */
  datatype ResponseText = Picked(text: string) | PickedNonString

  /** The message of the `RuntimeError` raised on an authentication failure. */
  const AuthErrorMessage: string :=
    "GigaChat API authentication failed (403 Forbidden). "
    + "Please check your GIGACHAT_CLIENT_ID and GIGACHAT_CLIENT_SECRET credentials. "
    + "Ensure they are valid and have the correct permissions."

  /** Guest count and limit the fallback assumes when the event data lacks them. */
  const FallbackGuests: int := 100
  const FallbackLimit: real := 1000000.0

  const FallbackCategories: seq<string> := [
    "Аренда площадки", "Кейтеринг", "Техническое обеспечение", "Декорации и оформление",
    "Фото/видео съемка", "Маркетинг и реклама", "Подарки и сувениры", "Персонал и координаторы", "Резерв"]

  /** How a fallback item's amount is set: a share of the limit, or an amount per guest. */
  datatype Rate = OfLimit(share: real) | PerGuest(amount: real)

  /** The fallback's rates, in category order. */
  const FallbackRates: seq<Rate> := [
    OfLimit(0.25), PerGuest(2500.0), OfLimit(0.15), OfLimit(0.10),
    OfLimit(0.10), OfLimit(0.12), PerGuest(500.0), OfLimit(0.08), OfLimit(0.10)]

  /** The amount a rate gives for a guest count and a limit. */
  function RateAmount(rate: Rate, guests: int, limit: real): real {
    match rate
    case OfLimit(share) => limit * share
    case PerGuest(amount) => guests as real * amount
  }

  /** The fixed descriptions of the fallback items; the two per-guest items name the guest count instead. */
  const FallbackDescriptions: seq<string> := [
    "Конференц-зал", "", "Звук, свет, проекторы", "Оформление зала",
    "Фотограф и видеооператор", "Реклама и продвижение", "", "Координаторы и хостес", "Резервный фонд"]

  const FallbackAnalysis: string := "Базовый расчет сметы на основе стандартных коэффициентов"

  const FallbackRecommendations: seq<string> := [
    "Рассмотрите возможность сокращения бюджета на декорации",
    "Договоритесь с подрядчиками заранее для получения скидок"]

  // ---------------------------------------------------------------------------
  // Prompt inputs
  // ---------------------------------------------------------------------------

  /** The prompt inputs for an event, read with `dict.get`. */
  function BudgetPromptFor(ev: EventData): BudgetPrompt
  {
    BudgetPrompt(
      ev.eventName.GetOr(""), ev.eventType.GetOr(""), ev.eventDate.GetOr(""), ev.location.GetOr(""),
      ev.expectedGuests.GetOr(0), ev.budgetLimit.GetOr(0.0))
  }

  /** Each prompt input is the event's value for its key; missing strings become "", missing guest count and limit become 0. */
  lemma BudgetPromptFields(ev: EventData)
    ensures ev.eventName.None? ==> BudgetPromptFor(ev).eventName == ""
    ensures ev.eventType.None? ==> BudgetPromptFor(ev).eventType == ""
    ensures ev.eventDate.None? ==> BudgetPromptFor(ev).eventDate == ""
    ensures ev.location.None? ==> BudgetPromptFor(ev).location == ""
    ensures ev.expectedGuests.None? ==> BudgetPromptFor(ev).expectedGuests == 0
    ensures ev.budgetLimit.None? ==> BudgetPromptFor(ev).budgetLimit == 0.0
    ensures ev.eventName.Some? ==> BudgetPromptFor(ev).eventName == ev.eventName.value
    ensures ev.eventType.Some? ==> BudgetPromptFor(ev).eventType == ev.eventType.value
    ensures ev.eventDate.Some? ==> BudgetPromptFor(ev).eventDate == ev.eventDate.value
    ensures ev.location.Some? ==> BudgetPromptFor(ev).location == ev.location.value
    ensures ev.expectedGuests.Some? ==> BudgetPromptFor(ev).expectedGuests == ev.expectedGuests.value
    ensures ev.budgetLimit.Some? ==> BudgetPromptFor(ev).budgetLimit == ev.budgetLimit.value
  {
  }

  // ---------------------------------------------------------------------------
  // Choosing the response text
  // ---------------------------------------------------------------------------

  /** A string value long enough for the last-resort scan (`len(value) > 10`). */
  predicate IsLongString(v: DictValue) {
    v.StrValue? && |v.s| > 10
  }

  /** The first entry, in iteration order, holding a long string. */
  function FirstLongString(entries: seq<(string, DictValue)>): (r: Option<nat>)
    ensures r.Some? ==> r.value < |entries| && IsLongString(entries[r.value].1)
    ensures r.Some? ==> forall j :: 0 <= j < r.value ==> !IsLongString(entries[j].1)
    ensures r.None? ==> forall j :: 0 <= j < |entries| ==> !IsLongString(entries[j].1)
  {
    if |entries| == 0 then None
    else if IsLongString(entries[0].1) then Some(0)
    else
      match FirstLongString(entries[1..])
      case None => None
      case Some(k) => Some(k + 1)
  }

  /** Python's `a or b`. */
  function PyOr(a: DictValue, b: DictValue): DictValue {
    if Truthy(a) then a else b
  }

  function AsResponseText(v: DictValue): ResponseText {
    match v
    case StrValue(s) => Picked(s)
    case NonStrValue(_) => PickedNonString
  }

  /**
   The response text: for a dictionary, the first truthy value among the keys
   "text", "output" and "result"; failing that, the first string value longer
   than ten characters; failing that, nothing (the empty text). A string result
   is used as it is, any other object through `str()`.
   */
  function PickResponseText(out: ChainOutput): (r: ResponseText)
    ensures out.StrOutput? ==> r == Picked(out.text)
    ensures out.OtherOutput? ==> r == Picked(out.repr)
    ensures out.DictOutput? ==>
      var e := out.entries;
      var t := GetOrEmpty(e, "text");
      var o := GetOrEmpty(e, "output");
      var res := GetOrEmpty(e, "result");
      var preferred := Truthy(t) || Truthy(o) || Truthy(res);
      && (Truthy(t) ==> r == AsResponseText(t))
      && (!Truthy(t) && Truthy(o) ==> r == AsResponseText(o))
      && (!Truthy(t) && !Truthy(o) && Truthy(res) ==> r == AsResponseText(res))
      && (r == Picked("") <==> !preferred && forall k :: 0 <= k < |e| ==> !IsLongString(e[k].1))
      && (r.PickedNonString? ==> preferred)
      && (!preferred && r != Picked("") ==>
            exists k :: 0 <= k < |e| && e[k].1 == StrValue(r.text) && |r.text| > 10
                         && forall j :: 0 <= j < k ==> !IsLongString(e[j].1))
  {
    match out
    case StrOutput(t) => Picked(t)
    case OtherOutput(p) => Picked(p)
    case DictOutput(e) =>
      var v := PyOr(PyOr(GetOrEmpty(e, "text"), GetOrEmpty(e, "output")), GetOrEmpty(e, "result"));
      if Truthy(v) then AsResponseText(v)
      else
        match FirstLongString(e)
        case Some(k) => Picked(e[k].1.s)
        case None => Picked("")
  }

  // ---------------------------------------------------------------------------
  // Authentication failures
  // ---------------------------------------------------------------------------

  /**
   The failure is fatal when its message contains "403", or "Forbidden" with that
   exact capitalisation, or "unauthorized" in any capitalisation: one of the three
   occurs somewhere in the message (the last in its lower-cased form).
   */
  function IsAuthFailure(message: string): (fatal: bool)
    ensures fatal <==>
      || (exists i :: OccursAt(message, "403", i))
      || (exists i :: OccursAt(message, "Forbidden", i))
      || (exists i :: OccursAt(Lower(message), "unauthorized", i))
  {
    ContainsIff(message, "403");
    ContainsIff(message, "Forbidden");
    ContainsIff(Lower(message), "unauthorized");
    || Contains(message, "403")
    || Contains(message, "Forbidden")
    || Contains(Lower(message), "unauthorized")
  }

  /**
   A status code alone is not recognised: a message without the digit 3, such
   as "HTTP 401", is fatal only through the words "Forbidden" or "unauthorized".
   */
  lemma Status401IsNotFatal(message: string)
    requires forall k :: 0 <= k < |message| ==> message[k] != '3'
    ensures IsAuthFailure(message) <==> Contains(message, "Forbidden") || Contains(Lower(message), "unauthorized")
  {
    AbsentCharBlocks(message, "403", 2);
  }

  /**
   "Forbidden" is matched case-sensitively: a message in capitals and spaces,
   such as "FORBIDDEN", is fatal only through the word "unauthorized".
   */
  lemma UpperCaseForbiddenIsNotFatal(message: string)
    requires forall k :: 0 <= k < |message| ==> 'A' <= message[k] <= 'Z' || message[k] == ' '
    ensures IsAuthFailure(message) <==> Contains(Lower(message), "unauthorized")
    ensures IsAuthFailure(message) <==> Contains(message, "UNAUTHORIZED")
  {
    AbsentCharBlocks(message, "403", 0);
    AbsentCharBlocks(message, "Forbidden", 1);
    ContainsIff(Lower(message), "unauthorized");
    ContainsIff(message, "UNAUTHORIZED");
    forall i ensures OccursAt(Lower(message), "unauthorized", i) <==> OccursAt(message, "UNAUTHORIZED", i) {
      CapitalsOccurAt(message, i);
    }
  }

  /** In capitals and spaces, "unauthorized" occurs in the lower-cased text exactly where "UNAUTHORIZED" occurs. */
  lemma CapitalsOccurAt(message: string, i: int)
    requires forall k :: 0 <= k < |message| ==> 'A' <= message[k] <= 'Z' || message[k] == ' '
    ensures OccursAt(Lower(message), "unauthorized", i) <==> OccursAt(message, "UNAUTHORIZED", i)
  {
    if 0 <= i && i + 12 <= |message| {
      var low := Lower(message)[i..i + 12];
      var up := message[i..i + 12];
      forall j | 0 <= j < 12 ensures low[j] == "unauthorized"[j] <==> up[j] == "UNAUTHORIZED"[j] {
        assert low[j] == LowerChar(message[i + j]) && up[j] == message[i + j];
      }
      if low == "unauthorized" {
        assert forall j :: 0 <= j < 12 ==> up[j] == "UNAUTHORIZED"[j];
        assert up == "UNAUTHORIZED";
      }
      if up == "UNAUTHORIZED" {
        assert forall j :: 0 <= j < 12 ==> low[j] == "unauthorized"[j];
        assert low == "unauthorized";
      }
    }
  }

  /**
   "unauthorized" is matched in any capitalisation: any word that lower-cases to
   it, such as "Unauthorized", makes every message around it fatal.
   */
  lemma CapitalisedUnauthorizedIsFatal(prefix: string, word: string, suffix: string)
    requires Lower(word) == "unauthorized"
    ensures IsAuthFailure(prefix + word + suffix)
  {
    assert OccursAt(Lower(word), "unauthorized", 0);
    AuthFailureSurvivesWrapping(prefix, word, suffix);
  }

  /**
   An authentication failure stays one when its message is wrapped in more
   text, as the client library's exception strings wrap the server's reply.
   */
  lemma AuthFailureSurvivesWrapping(prefix: string, message: string, suffix: string)
    requires IsAuthFailure(message)
    ensures IsAuthFailure(prefix + message + suffix)
  {
    if Contains(message, "403") {
      ContainsInContext(prefix, message, suffix, "403");
    } else if Contains(message, "Forbidden") {
      ContainsInContext(prefix, message, suffix, "Forbidden");
    } else {
      LowerConcat(prefix + message, suffix);
      LowerConcat(prefix, message);
      ContainsInContext(Lower(prefix), Lower(message), Lower(suffix), "unauthorized");
    }
  }

  // ---------------------------------------------------------------------------
  // The fallback budget
  // ---------------------------------------------------------------------------

  /** The sum of the items' planned amounts. */
  function SumAmounts(items: seq<BudgetItem>): real {
    if |items| == 0 then 0.0 else items[0].plannedAmount + SumAmounts(items[1..])
  }

  lemma SumOfNine(items: seq<BudgetItem>)
    requires |items| == 9
    ensures SumAmounts(items) ==
      items[0].plannedAmount + items[1].plannedAmount + items[2].plannedAmount
      + items[3].plannedAmount + items[4].plannedAmount + items[5].plannedAmount
      + items[6].plannedAmount + items[7].plannedAmount + items[8].plannedAmount
  {
    assert items[9..] == [];
    assert SumAmounts(items[8..]) == items[8].plannedAmount + SumAmounts(items[9..]) by { assert items[8..][1..] == items[9..]; }
    assert SumAmounts(items[7..]) == items[7].plannedAmount + SumAmounts(items[8..]) by { assert items[7..][1..] == items[8..]; }
    assert SumAmounts(items[6..]) == items[6].plannedAmount + SumAmounts(items[7..]) by { assert items[6..][1..] == items[7..]; }
    assert SumAmounts(items[5..]) == items[5].plannedAmount + SumAmounts(items[6..]) by { assert items[5..][1..] == items[6..]; }
    assert SumAmounts(items[4..]) == items[4].plannedAmount + SumAmounts(items[5..]) by { assert items[4..][1..] == items[5..]; }
    assert SumAmounts(items[3..]) == items[3].plannedAmount + SumAmounts(items[4..]) by { assert items[3..][1..] == items[4..]; }
    assert SumAmounts(items[2..]) == items[2].plannedAmount + SumAmounts(items[3..]) by { assert items[2..][1..] == items[3..]; }
    assert SumAmounts(items[1..]) == items[1].plannedAmount + SumAmounts(items[2..]) by { assert items[1..][1..] == items[2..]; }
    assert SumAmounts(items[0..]) == items[0].plannedAmount + SumAmounts(items[1..]) by { assert items[0..][1..] == items[1..]; }
    assert items[0..] == items;
  }

  /**
   The fallback's nine items for a guest count and a limit, in category order:
   seven are fixed shares of the limit (25, 15, 10, 10, 12, 8 and 10 percent) and
   two are per-guest amounts (2500 and 500 per guest) whose descriptions name the
   guest count.
   */
  function FallbackItems(guests: int, limit: real): (items: seq<BudgetItem>)
    ensures |items| == 9
    ensures forall k :: 0 <= k < 9 ==> items[k].category == FallbackCategories[k]
    ensures forall k :: 0 <= k < 9 ==> items[k].plannedAmount == RateAmount(FallbackRates[k], guests, limit)
    ensures forall k :: 0 <= k < 9 && k != 1 && k != 6 ==> items[k].description == FallbackDescriptions[k]
    ensures items[1].description == "Питание для " + IntToDecimal(guests) + " человек"
    ensures items[6].description == "Сувениры для " + IntToDecimal(guests) + " человек"
  {
    var g := guests as real;
    var count := IntToDecimal(guests);
    [ BudgetItem("Аренда площадки", limit * 0.25, "Конференц-зал"),
      BudgetItem("Кейтеринг", g * 2500.0, "Питание для " + count + " человек"),
      BudgetItem("Техническое обеспечение", limit * 0.15, "Звук, свет, проекторы"),
      BudgetItem("Декорации и оформление", limit * 0.10, "Оформление зала"),
      BudgetItem("Фото/видео съемка", limit * 0.10, "Фотограф и видеооператор"),
      BudgetItem("Маркетинг и реклама", limit * 0.12, "Реклама и продвижение"),
      BudgetItem("Подарки и сувениры", g * 500.0, "Сувениры для " + count + " человек"),
      BudgetItem("Персонал и координаторы", limit * 0.08, "Координаторы и хостес"),
      BudgetItem("Резерв", limit * 0.10, "Резервный фонд") ]
  }

  /**
   The fallback for a guest count and a limit: the nine items and their sum.
   The per-guest items come to 3000 per guest and the others to 90 percent of
   the limit; the total is not capped at the limit.
   */
  function FallbackBudgetFor(guests: int, limit: real): (b: Budget)
    ensures b.items == FallbackItems(guests, limit)
    ensures b.totalAmount == SumAmounts(b.items)
    ensures b.items[1].plannedAmount + b.items[6].plannedAmount == 3000.0 * guests as real
    ensures b.totalAmount - b.items[1].plannedAmount - b.items[6].plannedAmount == 0.9 * limit
    ensures b.totalAmount == 0.9 * limit + 3000.0 * guests as real
    ensures b.analysis == FallbackAnalysis && b.recommendations == FallbackRecommendations
  {
    var items := FallbackItems(guests, limit);
    SumOfNine(items);
    Budget(items, SumAmounts(items), FallbackAnalysis, FallbackRecommendations)
  }

  /** The fallback for an event: 100 guests and a limit of 1,000,000 when those keys are missing. */
  function FallbackBudget(ev: EventData): (b: Budget)
    ensures b.totalAmount == 0.9 * ev.budgetLimit.GetOr(1000000.0) + 3000.0 * ev.expectedGuests.GetOr(100) as real
  {
    FallbackBudgetFor(ev.expectedGuests.GetOr(FallbackGuests), ev.budgetLimit.GetOr(FallbackLimit))
  }

  /**
   The fallback's items for an event are those for its guest count and limit,
   100 and 1,000,000 standing in for missing keys; in particular the first and
   the two per-guest items, with and without the keys present.
   */
  lemma FallbackBudgetItems(ev: EventData)
    ensures FallbackBudget(ev).items == FallbackItems(ev.expectedGuests.GetOr(100), ev.budgetLimit.GetOr(1000000.0))
    ensures |FallbackBudget(ev).items| == 9
    ensures ev.expectedGuests.None? ==>
      FallbackBudget(ev).items[1].plannedAmount == 250000.0 && FallbackBudget(ev).items[6].plannedAmount == 50000.0
    ensures forall g :: ev.expectedGuests == Some(g) ==>
      FallbackBudget(ev).items[1].plannedAmount == 2500.0 * g as real
      && FallbackBudget(ev).items[6].plannedAmount == 500.0 * g as real
    ensures ev.budgetLimit.None? ==> FallbackBudget(ev).items[0].plannedAmount == 250000.0
    ensures forall l :: ev.budgetLimit == Some(l) ==> FallbackBudget(ev).items[0].plannedAmount == 0.25 * l
  {
    var items := FallbackBudget(ev).items;
    assert items[0].plannedAmount == RateAmount(FallbackRates[0], ev.expectedGuests.GetOr(100), ev.budgetLimit.GetOr(1000000.0));
    assert items[1].plannedAmount == RateAmount(FallbackRates[1], ev.expectedGuests.GetOr(100), ev.budgetLimit.GetOr(1000000.0));
    assert items[6].plannedAmount == RateAmount(FallbackRates[6], ev.expectedGuests.GetOr(100), ev.budgetLimit.GetOr(1000000.0));
  }

  /** With neither key present the fallback totals 1,200,000, above the assumed limit of 1,000,000. */
  lemma FallbackDefaultsExceedLimit(ev: EventData)
    requires ev.expectedGuests.None? && ev.budgetLimit.None?
    ensures FallbackBudget(ev).totalAmount == 1200000.0
    ensures FallbackBudget(ev).totalAmount > FallbackLimit
  {
  }

  /** The fallback overshoots its limit exactly when the per-guest items exceed a tenth of the limit. */
  lemma FallbackOvershootIff(guests: int, limit: real)
    ensures FallbackBudgetFor(guests, limit).totalAmount > limit <==> 3000.0 * guests as real > 0.1 * limit
  {
  }

  /** The fallback depends on the event only through its guest count and limit (defaults applied). */
  lemma FallbackDependsOnGuestsAndLimit(ev1: EventData, ev2: EventData)
    requires ev1.expectedGuests.GetOr(FallbackGuests) == ev2.expectedGuests.GetOr(FallbackGuests)
    requires ev1.budgetLimit.GetOr(FallbackLimit) == ev2.budgetLimit.GetOr(FallbackLimit)
    ensures FallbackBudget(ev1) == FallbackBudget(ev2)
  {
  }

  /**
   The prompt and the fallback disagree on missing values: the model is told
   0 guests and a limit of 0, the fallback assumes 100 guests and 1,000,000.
   */
  lemma PromptAndFallbackDefaultsDiffer(ev: EventData)
    requires ev.expectedGuests.None? && ev.budgetLimit.None?
    ensures BudgetPromptFor(ev).expectedGuests == 0 && BudgetPromptFor(ev).budgetLimit == 0.0
    ensures FallbackBudget(ev).items[1].plannedAmount == 2500.0 * FallbackGuests as real
    ensures FallbackBudget(ev).items[0].plannedAmount == 0.25 * FallbackLimit
  {
  }

  // ---------------------------------------------------------------------------
  // calculate_budget
  // ---------------------------------------------------------------------------

  /**
   One run of `calculate_budget`: `llm` is the chain call, `parse` is `json.loads`.
   `Failure` stands for the `RuntimeError` raised on an authentication failure.
   A `json.JSONDecodeError` raised by the chain call itself meets the decode-error
   handler first and gives the fallback, whatever its message says.
   */
  function CalculateBudget<D>(ev: EventData, llm: BudgetPrompt -> LlmReply, parse: string -> ParseResult<D>)
    : (r: Result<BudgetOutcome<D>, string>)
    ensures var reply := llm(BudgetPromptFor(ev));
      && (r.Failure? <==> reply.Raised? && !reply.decodeError && IsAuthFailure(reply.message))
      && (r.Failure? ==> r.error == AuthErrorMessage)
      && (r.Success? && r.value.UsedFallback? ==> r.value.budget == FallbackBudget(ev))
      && (reply.Replied? && PickResponseText(reply.output) == Picked("") ==>
            r == Success(UsedFallback(FallbackBudget(ev))))
      && (r.Success? && r.value.FromModel? <==>
            && reply.Replied?
            && PickResponseText(reply.output).Picked?
            && PickResponseText(reply.output).text != ""
            && parse(CleanJsonResponse(PickResponseText(reply.output).text)).Decoded?)
      && (r.Success? && r.value.FromModel? ==>
            r.value.doc == parse(CleanJsonResponse(PickResponseText(reply.output).text)).doc)
  {
    var fallback := Success(UsedFallback(FallbackBudget(ev)));
    match llm(BudgetPromptFor(ev))
    case Raised(message, decodeError) =>
      if !decodeError && IsAuthFailure(message) then Failure(AuthErrorMessage) else fallback
    case Replied(out) =>
      match PickResponseText(out)
      case PickedNonString =>
        // `calculate_budget` then fails inside the fence check or json.loads with
        // a TypeError/AttributeError, whose message names no authentication problem
        fallback
      case Picked(text) =>
        if text == "" then fallback
        else
          match parse(CleanJsonResponse(text))
          case Decoded(doc) => Success(FromModel(doc))
          case DecodeError(_) => fallback
  }

  /**
   A decode error raised by the chain call falls back even when its message
   would count as an authentication failure, as "(char 403)" in a decode
   error's position does.
   */
  lemma RaisedDecodeErrorFallsBack<D>(ev: EventData, llm: BudgetPrompt -> LlmReply, parse: string -> ParseResult<D>)
    requires llm(BudgetPromptFor(ev)).Raised? && llm(BudgetPromptFor(ev)).decodeError
    ensures CalculateBudget(ev, llm, parse) == Success(UsedFallback(FallbackBudget(ev)))
  {
  }

  /** An empty answer never reaches `json.loads`: the result is the same whatever the parser does. */
  lemma EmptyAnswerSkipsParser<D>(ev: EventData, llm: BudgetPrompt -> LlmReply,
                                  parse1: string -> ParseResult<D>, parse2: string -> ParseResult<D>)
    requires llm(BudgetPromptFor(ev)).Replied?
    requires PickResponseText(llm(BudgetPromptFor(ev)).output) == Picked("")
    ensures CalculateBudget(ev, llm, parse1) == CalculateBudget(ev, llm, parse2)
  {
  }

  /** A parsed answer is returned unchanged, whatever the limit: nothing checks it against the budget. */
  lemma ParsedAnswerIgnoresLimit<D>(ev: EventData, limit: real, llm: BudgetPrompt -> LlmReply,
                                    parse: string -> ParseResult<D>)
    requires CalculateBudget(ev, llm, parse).Success?
    requires CalculateBudget(ev, llm, parse).value.FromModel?
    requires llm(BudgetPromptFor(ev)) == llm(BudgetPromptFor(ev.(budgetLimit := Some(limit))))
    ensures CalculateBudget(ev.(budgetLimit := Some(limit)), llm, parse) == CalculateBudget(ev, llm, parse)
  {
  }
}

=== FILE: events.dfy ===
/**
 The event description the agents pass around as a Python dictionary. Every
 key may be missing; the chains read each with `dict.get(key, default)`.
 */
module Events {
  import opened Wrappers

  /** A dictionary entry that may be missing, present with value `None`, or present with a value. */
  datatype Field<+T> = Absent | Null | Present(value: T)

  /**
   The keys the chains read. `target_audience` is the one key the HTTP request
   model declares optional with a `None` default, so it arrives as `None`
   rather than missing. The other keys are modelled as missing or holding a
   value: that is what the HTTP request models produce, while event data passed
   in a free-form request context could hold `None` or a value of another type
   there (see "Left out" in the README for the fallback's behaviour then).
   */
  datatype EventData = EventData(
    eventName: Option<string>,
    eventType: Option<string>,
    eventDate: Option<string>,
    location: Option<string>,
    expectedGuests: Option<int>,
    budget: Option<real>,
    budgetLimit: Option<real>,
    targetAudience: Field<string>,
    format: Option<string>)
}

=== FILE: fences.dfy ===
/**
 Removal of Markdown code fences around the model's JSON answer, the same three
 lines in the budget chain and the planning chain: when the text contains a
 fence opened with a `json` tag, keep what follows that opener up to the next
 fence; otherwise, when it contains any fence, keep what lies between the first
 two fences; in both cases strip surrounding whitespace. Text without a fence is
 passed on untouched, not even stripped.
 */
module Fences {
  import opened Wrappers
  import opened Text

  const Fence: string := "```"
  const JsonFence: string := "```json"

  /** A `json`-tagged opener is itself a fence. */
  lemma JsonFenceIsFence(s: string)
    ensures Contains(s, JsonFence) ==> Contains(s, Fence)
  {
    if Contains(s, JsonFence) {
      var i := IndexOf(s, JsonFence).value;
      assert s[i..i + |Fence|] == s[i..i + |JsonFence|][..|Fence|];
      assert OccursAt(s, Fence, i);
    }
  }

  /**
   The cleaning step as written: `text.split("```json")[1].split("```")[0].strip()`,
   else `text.split("```")[1].split("```")[0].strip()`, else `text`.
   */
  function CleanJsonResponse(text: string): (r: string)
    ensures !Contains(text, Fence) ==> r == text
    ensures Contains(text, Fence) ==> !Contains(r, Fence)
    ensures Contains(text, Fence) ==> r == [] || (!IsSpace(r[0]) && !IsSpace(r[|r| - 1]))
  {
    JsonFenceIsFence(text);
    if Contains(text, JsonFence) then
      var inner := Split(Split(text, JsonFence)[1], Fence)[0];
      StripKeepsAbsence(inner, Fence);
      Strip(inner)
    else if Contains(text, Fence) then
      var inner := Split(Split(text, Fence)[1], Fence)[0];
      StripKeepsAbsence(inner, Fence);
      Strip(inner)
    else
      text
  }

  /** Cleaning an already cleaned answer changes nothing. */
  lemma CleanIdempotent(text: string)
    ensures CleanJsonResponse(CleanJsonResponse(text)) == CleanJsonResponse(text)
  {
  }

  /**
   With a `json`-tagged opener first found at `i`, and the first fence after it at
   `k` lying wholly before any later `json`-tagged opener, the answer is the text
   between the opener and that fence, stripped. Fences earlier in the text than
   the tagged opener play no part.
   */
  lemma JsonFenceBody(text: string, i: nat, k: nat)
    requires IndexOf(text, JsonFence) == Some(i)
    requires IndexOf(text[i + |JsonFence|..], Fence) == Some(k)
    requires var next := IndexOf(text[i + |JsonFence|..], JsonFence); next.None? || k + |Fence| <= next.value
    ensures CleanJsonResponse(text) == Strip(text[i + |JsonFence|..][..k])
  {
    JsonFenceSplits(text, i);
    FirstFenceBeforeNextOpener(text[i + |JsonFence|..], k);
  }

  /**
   Cutting `rest` at its first `json`-tagged opener keeps its first fence when
   that fence ends before the opener begins.
   */
  lemma FirstFenceBeforeNextOpener(rest: string, k: nat)
    requires IndexOf(rest, Fence) == Some(k)
    requires var next := IndexOf(rest, JsonFence); next.None? || k + |Fence| <= next.value
    ensures TakeUntil(TakeUntil(rest, JsonFence), Fence) == rest[..k]
  {
    var seg := TakeUntil(rest, JsonFence);
    assert seg == rest[0..|seg|];
    assert k + |Fence| <= |seg|;
    assert OccursAt(seg, Fence, k) by {
      assert seg[k..k + |Fence|] == rest[k..k + |Fence|];
    }
    forall j | 0 <= j < k ensures !OccursAt(seg, Fence, j) {
      if OccursAt(seg, Fence, j) {
        OccursInSlice(rest, 0, |seg|, Fence, j);
      }
    }
    IndexOfUnique(seg, Fence, k);
    assert seg[..k] == rest[..k];
  }

  /** With a `json`-tagged opener at `i` and no fence after it, the answer is the whole remainder, stripped. */
  lemma JsonFenceUnclosed(text: string, i: nat)
    requires IndexOf(text, JsonFence) == Some(i)
    requires !Contains(text[i + |JsonFence|..], Fence)
    ensures CleanJsonResponse(text) == Strip(text[i + |JsonFence|..])
  {
    var rest := text[i + |JsonFence|..];
    JsonFenceIsFence(text);
    JsonFenceIsFence(rest);
    SplitSecond(text, JsonFence, i);
    SplitFirst(rest, Fence);
  }

  /**
   The side condition of `JsonFenceBody` is needed: in "```jsonX````json" the
   first fence after the opener starts at offset 1 of the remainder, yet the
   answer is "X`", because the first split already cut the remainder at the
   second `json`-tagged opener.
   */
  lemma JsonFenceOverlap(text: string)
    requires text == "```jsonX````json"
    ensures IndexOf(text[7..], Fence) == Some(1)
    ensures CleanJsonResponse(text) == "X`"
  {
    var rest := text[7..];
    assert OccursAt(text, JsonFence, 0) by { assert text[0..7] == JsonFence; }
    IndexOfUnique(text, JsonFence, 0);
    OverlapRemainder(rest);
    JsonFenceSplits(text, 0);
    ShortStrip(rest[..2]);
  }

  lemma OverlapRemainder(rest: string)
    requires rest == "X````json"
    ensures IndexOf(rest, Fence) == Some(1)
    ensures TakeUntil(rest, JsonFence) == rest[..2]
  {
    assert OccursAt(rest, Fence, 1) by { assert rest[1..4] == "```"; }
    assert !OccursAt(rest, Fence, 0) by { assert rest[0..3][0] != Fence[0]; }
    IndexOfUnique(rest, Fence, 1);
    assert OccursAt(rest, JsonFence, 2) by { assert rest[2..9] == JsonFence; }
    assert !OccursAt(rest, JsonFence, 0) by { assert rest[0..7][0] != JsonFence[0]; }
    assert !OccursAt(rest, JsonFence, 1) by { assert rest[1..8][3] != JsonFence[3]; }
    IndexOfUnique(rest, JsonFence, 2);
  }

  lemma ShortStrip(seg: string)
    requires seg == "X`"
    ensures Strip(TakeUntil(seg, Fence)) == "X`"
  {
    assert IndexOf(seg, Fence) == None;
    assert StripLeft(seg) == seg by { assert !IsSpace(seg[0]); }
    assert StripRight(seg) == seg by { assert !IsSpace(seg[1]); }
  }

  /** The cleaning step through the `json`-tagged branch, one split at a time. */
  lemma JsonFenceSplits(text: string, i: nat)
    requires IndexOf(text, JsonFence) == Some(i)
    ensures CleanJsonResponse(text) == Strip(TakeUntil(TakeUntil(text[i + |JsonFence|..], JsonFence), Fence))
  {
    SplitSecond(text, JsonFence, i);
    SplitFirst(TakeUntil(text[i + |JsonFence|..], JsonFence), Fence);
  }

  /**
   Without a `json`-tagged opener, with the first fence at `i`, the answer is the
   text after it up to the next fence (or to the end), stripped.
   */
  lemma BareFenceBody(text: string, i: nat)
    requires !Contains(text, JsonFence)
    requires IndexOf(text, Fence) == Some(i)
    ensures CleanJsonResponse(text) == Strip(TakeUntil(text[i + |Fence|..], Fence))
  {
    var seg := TakeUntil(text[i + |Fence|..], Fence);
    SplitSecond(text, Fence, i);
    TakeUntilLacks(text[i + |Fence|..], Fence);
    SplitFirst(seg, Fence);
  }
}

=== FILE: llm.dfy ===
/**
 What the rest of the service sees of the language model and of `json.loads`.
 The remote model is an oracle: the chains pass it their prompt inputs and get
 back either what LangChain's `ainvoke` returned or the message of the exception
 it raised. `json.loads` is an oracle too, returning a document or failing with
 a decode error.
 */
module Llm {
  import opened Wrappers

  /** A value found in a dictionary returned by LangChain: a string, or anything else with its Python truthiness. */
  datatype DictValue = StrValue(s: string) | NonStrValue(truthy: bool)

  /** Python's `bool(v)`. */
  predicate Truthy(v: DictValue) {
    match v
    case StrValue(s) => s != ""
    case NonStrValue(t) => t
  }

  /** What `chain.ainvoke(...)` returned: a dictionary (entries in iteration order), a string, or another object with its `str()`. */
  datatype ChainOutput =
    | DictOutput(entries: seq<(string, DictValue)>)
    | StrOutput(text: string)
    | OtherOutput(repr: string)

  /**
   One call of a LangChain chain over the model: it returns, or raises with
   `str(e)` as message. `decodeError` tells whether the exception is a
   `json.JSONDecodeError`, which `calculate_budget` handles apart from the rest.
   */
  datatype LlmReply = Replied(output: ChainOutput) | Raised(message: string, decodeError: bool)

  /** One direct text generation (`GigaChatClient.agenerate`): a string, or an exception message. */
  datatype TextReply = Answered(text: string) | Failed(message: string)

  /** The outcome of `json.loads(text)`. */
  datatype ParseResult<+T> = Decoded(doc: T) | DecodeError(message: string)

  /** The position of `key` in a dictionary's entries, if present. */
  function KeyIndex(entries: seq<(string, DictValue)>, key: string): (r: Option<nat>)
    ensures r.Some? ==> r.value < |entries| && entries[r.value].0 == key
    ensures r.Some? ==> forall j :: 0 <= j < r.value ==> entries[j].0 != key
    ensures r.None? ==> forall j :: 0 <= j < |entries| ==> entries[j].0 != key
  {
    if |entries| == 0 then None
    else if entries[0].0 == key then Some(0)
    else
      match KeyIndex(entries[1..], key)
      case None => None
      case Some(k) => Some(k + 1)
  }

  /** `d.get(key, "")`. */
  function GetOrEmpty(entries: seq<(string, DictValue)>, key: string): (v: DictValue)
    ensures (forall j :: 0 <= j < |entries| ==> entries[j].0 != key) ==> v == StrValue("")
    ensures forall k :: (0 <= k < |entries| && entries[k].0 == key
      && (forall j :: 0 <= j < k ==> entries[j].0 != key)) ==> v == entries[k].1
  {
    match KeyIndex(entries, key)
    case None => StrValue("")
    case Some(k) => entries[k].1
  }
}

=== FILE: maestro.dfy ===
/**
 The orchestrating agent: classify the user's message into one of four intents
 (asking the model first, falling back to keyword matching), then run the
 planning chain, the budget chain, both (planning first) or neither, and wrap
 the results with the intent, a confidence and the list of agents used.
 */
module Maestro {
  import opened Wrappers
  import opened Text
  import opened Llm
  import opened Events
  import opened BudgetChain
  import opened PlanningChain

  // ---------------------------------------------------------------------------
  // Intents
  // ---------------------------------------------------------------------------

  datatype Intent = CreateEventPlan | CalculateBudgetIntent | FullEventPlanning | UnknownIntent

  /** The name the service uses for an intent. */
  function IntentName(i: Intent): string {
    match i
    case CreateEventPlan => "create_event_plan"
    case CalculateBudgetIntent => "calculate_budget"
    case FullEventPlanning => "full_event_planning"
    case UnknownIntent => "unknown"
  }

  /** The answers the classifier accepts from the model. */
  const ValidIntents: seq<string> := ["create_event_plan", "calculate_budget", "full_event_planning", "unknown"]

  /** The intent a name stands for, if it is one of the four. */
  function ParseIntent(s: string): Option<Intent> {
    if s == "create_event_plan" then Some(CreateEventPlan)
    else if s == "calculate_budget" then Some(CalculateBudgetIntent)
    else if s == "full_event_planning" then Some(FullEventPlanning)
    else if s == "unknown" then Some(UnknownIntent)
    else None
  }

  /** Names and intents correspond one to one, and the valid answers are exactly the four names. */
  lemma IntentNamesRoundTrip(i: Intent, s: string)
    ensures ParseIntent(IntentName(i)) == Some(i)
    ensures ParseIntent(s).Some? ==> IntentName(ParseIntent(s).value) == s
    ensures ParseIntent(s).Some? <==> s in ValidIntents
    ensures IntentName(i) in ValidIntents
  {
  }

  // ---------------------------------------------------------------------------
  // Keyword rules
  // ---------------------------------------------------------------------------

  /** `keyword in message.lower()`. */
  predicate Mentions(message: string, keyword: string) {
    Contains(Lower(message), keyword)
  }

  const PlanWord: string := "план"
  const EstimateWord: string := "смет"
  const BudgetWord: string := "бюджет"

  /** The keyword rule used when the model's answer is not a valid intent. */
  function IntentOnInvalidAnswer(message: string): (r: Intent)
    ensures var plan := Mentions(message, PlanWord);
      var est := Mentions(message, EstimateWord);
      var bud := Mentions(message, BudgetWord);
      && (r == FullEventPlanning <==> plan && est)
      && (r == CreateEventPlan <==> plan && !est)
      && (r == CalculateBudgetIntent <==> !plan && (est || bud))
      && (r == UnknownIntent <==> !plan && !est && !bud)
  {
    if Mentions(message, PlanWord) && Mentions(message, EstimateWord) then FullEventPlanning
    else if Mentions(message, PlanWord) then CreateEventPlan
    else if Mentions(message, EstimateWord) || Mentions(message, BudgetWord) then CalculateBudgetIntent
    else UnknownIntent
  }

  /** The keyword rule used when the model call raises: "бюджет" also counts towards the full plan. */
  function IntentOnModelError(message: string): (r: Intent)
    ensures var plan := Mentions(message, PlanWord);
      var est := Mentions(message, EstimateWord);
      var bud := Mentions(message, BudgetWord);
      && (r == FullEventPlanning <==> plan && (est || bud))
      && (r == CreateEventPlan <==> plan && !est && !bud)
      && (r == CalculateBudgetIntent <==> !plan && (est || bud))
      && (r == UnknownIntent <==> !plan && !est && !bud)
  {
    var lowered := Lower(message);
    if Contains(lowered, PlanWord) && (Contains(lowered, EstimateWord) || Contains(lowered, BudgetWord)) then
      FullEventPlanning
    else if Contains(lowered, PlanWord) then CreateEventPlan
    else if Contains(lowered, EstimateWord) || Contains(lowered, BudgetWord) then CalculateBudgetIntent
    else UnknownIntent
  }

  /**
   The two keyword rules disagree exactly on messages that mention "план" and
   "бюджет" but not "смет": the invalid-answer rule then plans only, the
   model-error rule plans and budgets.
   */
  lemma KeywordRulesDiverge(message: string)
    ensures IntentOnInvalidAnswer(message) != IntentOnModelError(message) <==>
      Mentions(message, PlanWord) && Mentions(message, BudgetWord) && !Mentions(message, EstimateWord)
    ensures Mentions(message, PlanWord) && Mentions(message, BudgetWord) && !Mentions(message, EstimateWord) ==>
      IntentOnInvalidAnswer(message) == CreateEventPlan && IntentOnModelError(message) == FullEventPlanning
  {
  }

  // ---------------------------------------------------------------------------
  // _classify_intent
  // ---------------------------------------------------------------------------

  /**
   The intent name for a message. `llm` is the direct model call (the prompt
   wrapping the message is left out). A valid answer, after stripping and
   lower-casing, is taken as it is; an invalid one, or a failed call, leads to
   the matching keyword rule. The result is always one of the four names.
   */
  function ClassifyIntent(message: string, llm: string -> TextReply): (r: string)
    ensures r in ValidIntents
    ensures llm(message).Answered? && Lower(Strip(llm(message).text)) in ValidIntents ==>
      r == Lower(Strip(llm(message).text))
    ensures llm(message).Answered? && Lower(Strip(llm(message).text)) !in ValidIntents ==>
      r == IntentName(IntentOnInvalidAnswer(message))
    ensures llm(message).Failed? ==> r == IntentName(IntentOnModelError(message))
  {
    match llm(message)
    case Answered(response) =>
      var intent := Lower(Strip(response));
      if intent in ValidIntents then intent else IntentName(IntentOnInvalidAnswer(message))
    case Failed(_) => IntentName(IntentOnModelError(message))
  }

  // ---------------------------------------------------------------------------
  // _extract_event_data
  // ---------------------------------------------------------------------------

  /** The request context; only its "event_data" entry is read. `None` stands for a context without that key. */
  datatype Context = Context(eventData: Option<EventData>)

  /** The event assumed when the context carries none. */
  const DefaultEventData: EventData := EventData(
    Some("Новое событие"), Some("conference"), Some("2025-12-31"), Some("Москва"),
    Some(100), Some(1000000.0), Some(1000000.0), Absent, None)

  /** `context["event_data"]` when the context has it, the default event otherwise. */
  function ExtractEventData(message: string, context: Option<Context>): (ev: EventData)
    ensures if context.Some? && context.value.eventData.Some? then ev == context.value.eventData.value
      else
        && ev.eventName == Some("Новое событие") && ev.eventType == Some("conference")
        && ev.eventDate == Some("2025-12-31") && ev.location == Some("Москва")
        && ev.expectedGuests == Some(100)
        && ev.budget == Some(1000000.0) && ev.budgetLimit == Some(1000000.0)
        && ev.targetAudience.Absent? && ev.format.None?
  {
    if context.Some? && context.value.eventData.Some? then context.value.eventData.value
    else DefaultEventData
  }

  /** The message is not read: the event comes from the context or the fixed default alone. */
  lemma ExtractIgnoresMessage(message1: string, message2: string, context: Option<Context>)
    ensures ExtractEventData(message1, context) == ExtractEventData(message2, context)
  {
  }

  /**
   The default event flows into the chains as: a fallback budget of 1,200,000
   against its own limit of 1,000,000, and a plan prompt with 100 guests, a
   budget of 1,000,000, the audience "Не указано" and an empty format.
   */
  lemma DefaultEventThroughChains()
    ensures FallbackBudget(DefaultEventData).totalAmount == 1200000.0
    ensures FallbackBudget(DefaultEventData).totalAmount > DefaultEventData.budgetLimit.value
    ensures PlanPromptFor(DefaultEventData).expectedGuests == 100
    ensures PlanPromptFor(DefaultEventData).budget == 1000000.0
    ensures PlanPromptFor(DefaultEventData).targetAudience == Some(UnspecifiedAudience)
    ensures PlanPromptFor(DefaultEventData).format == ""
  {
  }

  // ---------------------------------------------------------------------------
  // process_request
  // ---------------------------------------------------------------------------

  datatype Agent = PlanningAgent | FinanceAgent

  function AgentLabel(a: Agent): string {
    match a
    case PlanningAgent => "planning"
    case FinanceAgent => "finance"
  }

  /** The labels the three routes report. */
  lemma RouteLabels()
    ensures AgentLabels([PlanningAgent]) == ["planning"]
    ensures AgentLabels([FinanceAgent]) == ["finance"]
    ensures AgentLabels([PlanningAgent, FinanceAgent]) == ["planning", "finance"]
  {
  }

  /** The "agents_used" entry for the agents called. */
  function AgentLabels(agents: seq<Agent>): seq<string> {
    seq(|agents|, k requires 0 <= k < |agents| => AgentLabel(agents[k]))
  }

  /** The "results" entry of the response. */
  datatype Results<+P, +D> =
    | PlanResults(plan: PlanOutcome<P>)
    | BudgetResults(budget: BudgetOutcome<D>)
    | CombinedResults(plan: PlanOutcome<P>, budget: BudgetOutcome<D>)
    | MessageResults(message: string)

  datatype Response<+P, +D> = Response(intent: string, confidence: real, agentsUsed: seq<string>, results: Results<P, D>)

  /** The agents invoked, in order, and what the request returned or raised. */
  datatype Run<+P, +D> = Run(calls: seq<Agent>, response: Result<Response<P, D>, string>)

  /** The intents that call an agent. */
  const KnownIntents: seq<string> := ["create_event_plan", "calculate_budget", "full_event_planning"]

  /** Among the valid names, those that call an agent are the ones other than "unknown". */
  lemma KnownIntentsAreValidOnes(s: string)
    requires s in ValidIntents
    ensures s in KnownIntents <==> s != "unknown"
  {
  }

  const UnknownIntentMessage: string := "Не удалось определить намерение. Попробуйте переформулировать запрос."

  /** The oracles one request consults: the intent classifier, and each chain's model call and JSON parser. */
  datatype Oracles<!P, !D> = Oracles(
    classify: string -> TextReply,
    planLlm: PlanPrompt -> LlmReply,
    planParse: string -> ParseResult<P>,
    budgetLlm: BudgetPrompt -> LlmReply,
    budgetParse: string -> ParseResult<D>)

  /** The "create_event_plan" branch: the planning chain alone, which never raises. */
  function PlanOnly<P, D>(ev: EventData, o: Oracles<P, D>): (r: Run<P, D>)
    ensures r.calls == [PlanningAgent] && r.response.Success?
    ensures r.response.value.agentsUsed == AgentLabels(r.calls) && r.response.value.confidence == 0.95
    ensures r.response.value.intent == "create_event_plan"
    ensures r.response.value.results == PlanResults(GeneratePlan(ev, o.planLlm, o.planParse))
  {
    RouteLabels();
    Run([PlanningAgent], Success(Response("create_event_plan", 0.95, ["planning"],
      PlanResults(GeneratePlan(ev, o.planLlm, o.planParse)))))
  }

  /** The "calculate_budget" branch: the budget chain alone, whose authentication error escapes. */
  function BudgetOnly<P, D>(ev: EventData, o: Oracles<P, D>): (r: Run<P, D>)
    ensures r.calls == [FinanceAgent]
    ensures r.response.Success? ==> r.response.value.intent == "calculate_budget"
    ensures r.response.Failure? <==> CalculateBudget(ev, o.budgetLlm, o.budgetParse).Failure?
    ensures r.response.Failure? ==> r.response.error == AuthErrorMessage
    ensures r.response.Success? ==>
      r.response.value.results == BudgetResults(CalculateBudget(ev, o.budgetLlm, o.budgetParse).value)
    ensures r.response.Success? ==>
      r.response.value.agentsUsed == AgentLabels(r.calls) && r.response.value.confidence == 0.95
  {
    var budget := CalculateBudget(ev, o.budgetLlm, o.budgetParse);
    RouteLabels();
    Run([FinanceAgent],
      if budget.Failure? then Failure(budget.error)
      else Success(Response("calculate_budget", 0.95, ["finance"], BudgetResults(budget.value))))
  }

  /** The "full_event_planning" branch: planning first, then the budget, whose authentication error escapes. */
  function PlanThenBudget<P, D>(ev: EventData, o: Oracles<P, D>): (r: Run<P, D>)
    ensures r.calls == [PlanningAgent, FinanceAgent]
    ensures r.response.Success? ==> r.response.value.intent == "full_event_planning"
    ensures r.response.Failure? <==> CalculateBudget(ev, o.budgetLlm, o.budgetParse).Failure?
    ensures r.response.Failure? ==> r.response.error == AuthErrorMessage
    ensures r.response.Success? ==>
      r.response.value.results ==
        CombinedResults(GeneratePlan(ev, o.planLlm, o.planParse), CalculateBudget(ev, o.budgetLlm, o.budgetParse).value)
    ensures r.response.Success? ==>
      r.response.value.agentsUsed == AgentLabels(r.calls) && r.response.value.confidence == 0.95
  {
    var plan := GeneratePlan(ev, o.planLlm, o.planParse);
    var budget := CalculateBudget(ev, o.budgetLlm, o.budgetParse);
    RouteLabels();
    Run([PlanningAgent, FinanceAgent],
      if budget.Failure? then Failure(budget.error)
      else Success(Response("full_event_planning", 0.95, ["planning", "finance"], CombinedResults(plan, budget.value))))
  }

  /** The routing step of `process_request` for an intent name already chosen. */
  function Route<P, D>(intent: string, ev: EventData, o: Oracles<P, D>): (r: Run<P, D>)
    ensures intent == "create_event_plan" ==> r.calls == [PlanningAgent]
    ensures intent == "calculate_budget" ==> r.calls == [FinanceAgent]
    ensures intent == "full_event_planning" ==> r.calls == [PlanningAgent, FinanceAgent]
    ensures intent !in KnownIntents ==>
      r == Run([], Success(Response("unknown", 0.0, [], MessageResults(UnknownIntentMessage))))
    ensures r.response.Success? ==> r.response.value.agentsUsed == AgentLabels(r.calls)
    ensures r.response.Success? ==> (r.response.value.confidence == 0.95 <==> r.calls != [])
    ensures r.response.Success? && r.calls != [] ==> r.response.value.intent == intent
    ensures r.response.Failure? <==>
      FinanceAgent in r.calls && CalculateBudget(ev, o.budgetLlm, o.budgetParse).Failure?
    ensures r.response.Failure? ==> r.response.error == AuthErrorMessage
    ensures intent == "create_event_plan" ==>
      r.response.Success? && r.response.value.results == PlanResults(GeneratePlan(ev, o.planLlm, o.planParse))
    ensures intent == "calculate_budget" && r.response.Success? ==>
      r.response.value.results == BudgetResults(CalculateBudget(ev, o.budgetLlm, o.budgetParse).value)
    ensures intent == "full_event_planning" && r.response.Success? ==>
      r.response.value.results ==
        CombinedResults(GeneratePlan(ev, o.planLlm, o.planParse), CalculateBudget(ev, o.budgetLlm, o.budgetParse).value)
  {
    if intent == "create_event_plan" then PlanOnly(ev, o)
    else if intent == "calculate_budget" then BudgetOnly(ev, o)
    else if intent == "full_event_planning" then PlanThenBudget(ev, o)
    else Run([], Success(Response("unknown", 0.0, [], MessageResults(UnknownIntentMessage))))
  }

  /**
   One request: classify, extract the event, route. The reported intent is
   always one of the four names. The chains run on the event extracted from
   the context. Each known intent calls its agents in order, planning before
   finance for the full plan, and reports their outputs as the results with
   confidence 0.95. "unknown" calls nobody. The request fails exactly when the
   budget chain ran and raised its authentication error.
   */
  function ProcessRequest<P, D>(message: string, context: Option<Context>, o: Oracles<P, D>): (r: Run<P, D>)
    ensures r.response.Success? ==> r.response.value.intent in ValidIntents
    ensures r.response.Success? ==> r.response.value.intent == ClassifyIntent(message, o.classify)
    ensures r.response.Success? ==> r.response.value.agentsUsed == AgentLabels(r.calls)
    ensures r.response.Success? ==>
      (r.response.value.confidence == 0.95 <==> r.response.value.intent != "unknown")
    ensures ClassifyIntent(message, o.classify) == "unknown" ==>
      r == Run([], Success(Response("unknown", 0.0, [], MessageResults(UnknownIntentMessage))))
    ensures var i := ClassifyIntent(message, o.classify);
      && (i == "create_event_plan" ==> r.calls == [PlanningAgent])
      && (i == "calculate_budget" ==> r.calls == [FinanceAgent])
      && (i == "full_event_planning" ==> r.calls == [PlanningAgent, FinanceAgent])
    ensures var ev := ExtractEventData(message, context);
      r.response.Failure? <==> FinanceAgent in r.calls && CalculateBudget(ev, o.budgetLlm, o.budgetParse).Failure?
    ensures r.response.Failure? ==> r.response.error == AuthErrorMessage
    ensures var ev := ExtractEventData(message, context);
      var i := ClassifyIntent(message, o.classify);
      && (i == "create_event_plan" ==>
            r.response.Success? && r.response.value.results == PlanResults(GeneratePlan(ev, o.planLlm, o.planParse)))
      && (i == "calculate_budget" && r.response.Success? ==>
            r.response.value.results == BudgetResults(CalculateBudget(ev, o.budgetLlm, o.budgetParse).value))
      && (i == "full_event_planning" && r.response.Success? ==>
            r.response.value.results ==
              CombinedResults(GeneratePlan(ev, o.planLlm, o.planParse), CalculateBudget(ev, o.budgetLlm, o.budgetParse).value))
  {
    var intent := ClassifyIntent(message, o.classify);
    KnownIntentsAreValidOnes(intent);
    Route(intent, ExtractEventData(message, context), o)
  }

  /**
   The same authentication failure ends a budget request with an error but
   only sends the planning chain to its fallback plan.
   */
  lemma AuthFailureOnlyFatalForBudget<P, D>(ev: EventData, o: Oracles<P, D>)
    requires o.budgetLlm(BudgetPromptFor(ev)).Raised? && !o.budgetLlm(BudgetPromptFor(ev)).decodeError
    requires IsAuthFailure(o.budgetLlm(BudgetPromptFor(ev)).message)
    requires o.planLlm(PlanPromptFor(ev)) == o.budgetLlm(BudgetPromptFor(ev))
    ensures CalculateBudget(ev, o.budgetLlm, o.budgetParse) == Failure(AuthErrorMessage)
    ensures GeneratePlan(ev, o.planLlm, o.planParse) == PlanFallback(FallbackPlan(ev))
    ensures Route("full_event_planning", ev, o).response == Failure(AuthErrorMessage)
  {
  }
}

=== FILE: planning_chain.dfy ===
/**
 The planning agent's chain: ask the model for an event plan, take the "text"
 entry of LangChain's result, strip code fences and parse it as JSON. Every
 exception on the way, whether the model call failed (authentication failures
 included), the result had no usable text or the JSON did not parse, yields a
 fixed fallback plan; nothing is ever raised.
 */
module PlanningChain {
  import opened Wrappers
  import opened Text
  import opened Fences
  import opened Llm
  import opened Events

  /** One slot of the day's timeline: its "time" entry reads "<start> - <end>". */
  datatype Phase = Phase(start: string, end: string, activity: string) {
    /** The "time" entry of the phase. */
    function Time(): string {
      start + " - " + end
    }
  }

  /** One preparation task with its priority and how many days before the event it is due. */
  datatype Task = Task(title: string, priority: string, deadlineDays: int)

  /** A plan document as the fallback builds it. */
  datatype Plan = Plan(timelinePhases: seq<Phase>, tasks: seq<Task>, criticalPath: seq<string>, recommendations: seq<string>)

  /**
   The values the planning prompt template is filled with. `targetAudience` is
   `None` when the event data holds the key with value `None`.
   */
  datatype PlanPrompt = PlanPrompt(
    eventName: string,
    eventType: string,
    eventDate: string,
    location: string,
    expectedGuests: int,
    budget: real,
    targetAudience: Option<string>,
    format: string)

  /** What `generate_plan` returns: the model's parsed document, or the fallback. */
  datatype PlanOutcome<+P> = PlanFromModel(doc: P) | PlanFallback(plan: Plan)

  const UnspecifiedAudience: string := "Не указано"

  // ---------------------------------------------------------------------------
  // Prompt inputs
  // ---------------------------------------------------------------------------

  /** `event_data.get("target_audience", "Не указано")`: the default applies only when the key is missing. */
  function AudienceFor(f: Field<string>): Option<string> {
    match f
    case Absent => Some(UnspecifiedAudience)
    case Null => None
    case Present(a) => Some(a)
  }

  /** The prompt inputs: each key's value when present, its default when missing. */
  function PlanPromptFor(ev: EventData): (p: PlanPrompt)
    ensures ev.eventName.Some? ==> p.eventName == ev.eventName.value
    ensures ev.eventType.Some? ==> p.eventType == ev.eventType.value
    ensures ev.eventDate.Some? ==> p.eventDate == ev.eventDate.value
    ensures ev.location.Some? ==> p.location == ev.location.value
    ensures ev.expectedGuests.Some? ==> p.expectedGuests == ev.expectedGuests.value
    ensures ev.budget.Some? ==> p.budget == ev.budget.value
    ensures ev.format.Some? ==> p.format == ev.format.value
    ensures ev.targetAudience.Present? ==> p.targetAudience == Some(ev.targetAudience.value)
  {
    PlanPrompt(
      ev.eventName.GetOr(""), ev.eventType.GetOr(""), ev.eventDate.GetOr(""), ev.location.GetOr(""),
      ev.expectedGuests.GetOr(0), ev.budget.GetOr(0.0), AudienceFor(ev.targetAudience), ev.format.GetOr(""))
  }

  /**
   Missing inputs reach the model as empty strings, 0 guests, a budget of 0 and
   the audience "Не указано"; an audience present as `None` is passed on as `None`.
   */
  lemma PlanPromptDefaults(ev: EventData)
    ensures var p := PlanPromptFor(ev);
      && (ev.eventName.None? ==> p.eventName == "")
      && (ev.eventType.None? ==> p.eventType == "")
      && (ev.eventDate.None? ==> p.eventDate == "")
      && (ev.location.None? ==> p.location == "")
      && (ev.format.None? ==> p.format == "")
      && (ev.expectedGuests.None? ==> p.expectedGuests == 0)
      && (ev.budget.None? ==> p.budget == 0.0)
      && (ev.targetAudience.Absent? ==> p.targetAudience == Some(UnspecifiedAudience))
      && (ev.targetAudience.Null? ==> p.targetAudience.None?)
      && (forall a :: ev.targetAudience == Present(a) ==> p.targetAudience == Some(a))
  {
  }

  // ---------------------------------------------------------------------------
  // The fallback plan
  // ---------------------------------------------------------------------------

  /**
   The fallback plan, the same for every event: four back-to-back phases from
   09:00 to 17:00, three tasks due 60, 45 and 30 days ahead with priorities
   HIGH, HIGH, MEDIUM, a three-step critical path and one recommendation.
   */
  function FallbackPlan(ev: EventData): (p: Plan)
    ensures |p.timelinePhases| == 4 && |p.tasks| == 3 && |p.criticalPath| == 3 && |p.recommendations| == 1
    ensures p.timelinePhases[0].start == "09:00" && p.timelinePhases[3].end == "17:00"
    ensures forall i :: 0 <= i < 3 ==> p.timelinePhases[i].end == p.timelinePhases[i + 1].start
    ensures forall i, j :: 0 <= i < j < |p.tasks| ==> p.tasks[i].deadlineDays > p.tasks[j].deadlineDays
    ensures [p.tasks[0].deadlineDays, p.tasks[1].deadlineDays, p.tasks[2].deadlineDays] == [60, 45, 30]
    ensures [p.tasks[0].priority, p.tasks[1].priority, p.tasks[2].priority] == ["HIGH", "HIGH", "MEDIUM"]
    ensures p.timelinePhases[0].Time() == "09:00 - 10:00" && p.timelinePhases[1].Time() == "10:00 - 12:00"
    ensures p.timelinePhases[2].Time() == "12:00 - 13:00" && p.timelinePhases[3].Time() == "13:00 - 17:00"
  {
    Plan(
      [ Phase("09:00", "10:00", "Регистрация участников"),
        Phase("10:00", "12:00", "Основная программа"),
        Phase("12:00", "13:00", "Обед"),
        Phase("13:00", "17:00", "Продолжение программы") ],
      [ Task("Забронировать площадку", "HIGH", 60),
        Task("Согласовать программу", "HIGH", 45),
        Task("Заключить договор с кейтерингом", "MEDIUM", 30) ],
      ["Площадка", "Программа", "Кейтеринг"],
      ["Начните подготовку за 2-3 месяца"])
  }

  /** The fallback plan does not depend on the event. */
  lemma FallbackPlanIgnoresEvent(ev1: EventData, ev2: EventData)
    ensures FallbackPlan(ev1) == FallbackPlan(ev2)
  {
  }

  // ---------------------------------------------------------------------------
  // generate_plan
  // ---------------------------------------------------------------------------

  /**
   `result.get("text", "")`: a missing key gives the empty text. A non-dictionary
   result (no `get`) and a non-string value (rejected by the fence check or by
   `json.loads`) raise inside the `try`; `None` stands for that.
   */
  function PlanResponseText(out: ChainOutput): (r: Option<string>)
    ensures r.Some? ==> out.DictOutput?
    ensures out.DictOutput? && KeyIndex(out.entries, "text").None? ==> r == Some("")
    ensures out.DictOutput? && KeyIndex(out.entries, "text").Some? ==>
      var v := out.entries[KeyIndex(out.entries, "text").value].1;
      (r.Some? <==> v.StrValue?) && (v.StrValue? ==> r.value == v.s)
  {
    match out
    case DictOutput(e) =>
      (match KeyIndex(e, "text")
       case None => Some("")
       case Some(k) => if e[k].1.StrValue? then Some(e[k].1.s) else None)
    case StrOutput(_) => None
    case OtherOutput(_) => None
  }

  /**
   One run of `generate_plan`: `llm` is the chain call, `parse` is `json.loads`.
   The result type has no failure case: the plan chain never raises.
   */
  function GeneratePlan<P>(ev: EventData, llm: PlanPrompt -> LlmReply, parse: string -> ParseResult<P>)
    : (r: PlanOutcome<P>)
    ensures var reply := llm(PlanPromptFor(ev));
      && (reply.Raised? ==> r == PlanFallback(FallbackPlan(ev)))
      && (r.PlanFallback? ==> r.plan == FallbackPlan(ev))
      && (r.PlanFromModel? <==>
            && reply.Replied?
            && reply.output.DictOutput?
            && PlanResponseText(reply.output).Some?
            && parse(CleanJsonResponse(PlanResponseText(reply.output).value)).Decoded?)
      && (r.PlanFromModel? ==> r.doc == parse(CleanJsonResponse(PlanResponseText(reply.output).value)).doc)
  {
    match llm(PlanPromptFor(ev))
    case Raised(_, _) => PlanFallback(FallbackPlan(ev))
    case Replied(out) =>
      match PlanResponseText(out)
      case None => PlanFallback(FallbackPlan(ev))
      case Some(text) =>
        match parse(CleanJsonResponse(text))
        case Decoded(doc) => PlanFromModel(doc)
        case DecodeError(_) => PlanFallback(FallbackPlan(ev))
  }

  /**
   Unlike the budget chain, the plan chain has no empty-answer shortcut: a
   missing "text" entry is handed to `json.loads` as the empty string.
   */
  lemma MissingTextIsParsed<P>(ev: EventData, llm: PlanPrompt -> LlmReply, parse: string -> ParseResult<P>)
    requires llm(PlanPromptFor(ev)).Replied?
    requires llm(PlanPromptFor(ev)).output.DictOutput?
    requires KeyIndex(llm(PlanPromptFor(ev)).output.entries, "text").None?
    ensures GeneratePlan(ev, llm, parse).PlanFromModel? <==> parse("").Decoded?
  {
  }
}

=== FILE: text.dfy ===
/**
 The handful of Python `str` operations the chains and the orchestrator rely on:
 substring search (`pat in s`, `s.find`), `s.split(sep)`, `s.strip()`, `s.lower()`
 and `str(n)` for integers. Strings are sequences of Unicode scalar values, as
 Python 3 strings are sequences of code points.
 */
module Text {
  import opened Wrappers

  // ---------------------------------------------------------------------------
  // Substring search
  // ---------------------------------------------------------------------------

  /** `pat` occurs in `s` starting at index `i`. */
  predicate OccursAt(s: string, pat: string, i: int) {
    0 <= i && i + |pat| <= |s| && s[i..i + |pat|] == pat
  }

  lemma OccursAtShift(s: string, pat: string, i: int)
    requires |s| > 0 && 0 <= i
    ensures OccursAt(s[1..], pat, i) <==> OccursAt(s, pat, i + 1)
  {
    if i + |pat| <= |s[1..]| {
      assert s[1..][i..i + |pat|] == s[i + 1..i + 1 + |pat|];
    }
  }

  /** Python's `s.find(pat)`: the least index at which `pat` occurs, or `None` for -1. */
  function IndexOf(s: string, pat: string): (r: Option<nat>)
    ensures r.Some? ==> OccursAt(s, pat, r.value)
    ensures r.Some? ==> forall j :: 0 <= j < r.value ==> !OccursAt(s, pat, j)
    ensures r.None? ==> forall j :: !OccursAt(s, pat, j)
    decreases |s|
  {
    if |s| < |pat| then
      None
    else if s[..|pat|] == pat then
      Some(0)
    else
      var rest := IndexOf(s[1..], pat);
      if rest.None? then
        assert forall j :: !OccursAt(s, pat, j) by {
          forall j ensures !OccursAt(s, pat, j) {
            if j >= 1 {
              OccursAtShift(s, pat, j - 1);
            }
          }
        }
        None
      else
        assert forall j :: 0 <= j < rest.value + 1 ==> !OccursAt(s, pat, j) by {
          forall j | 0 <= j < rest.value + 1 ensures !OccursAt(s, pat, j) {
            if j >= 1 {
              OccursAtShift(s, pat, j - 1);
            }
          }
        }
        OccursAtShift(s, pat, rest.value);
        Some(rest.value + 1)
  }

  /** Python's `pat in s`. */
  predicate Contains(s: string, pat: string) {
    IndexOf(s, pat).Some?
  }

  /** The first occurrence is unique: an occurrence with none before it is what `find` returns. */
  lemma IndexOfUnique(s: string, pat: string, k: nat)
    requires OccursAt(s, pat, k)
    requires forall j :: 0 <= j < k ==> !OccursAt(s, pat, j)
    ensures IndexOf(s, pat) == Some(k)
  {
  }

  /** `pat` cannot occur in `s` when one of its characters appears nowhere in `s`. */
  lemma AbsentCharBlocks(s: string, pat: string, m: nat)
    requires m < |pat|
    requires forall k :: 0 <= k < |s| ==> s[k] != pat[m]
    ensures !Contains(s, pat)
  {
    forall j ensures !OccursAt(s, pat, j) {
      if 0 <= j && j + |pat| <= |s| {
        assert s[j..j + |pat|][m] == s[j + m];
      }
    }
  }

  /** `pat in s` holds exactly when `pat` occurs at some index of `s`. */
  lemma ContainsIff(s: string, pat: string)
    ensures Contains(s, pat) <==> exists i :: OccursAt(s, pat, i)
  {
  }

  /** An occurrence inside a slice is an occurrence in the whole string. */
  lemma OccursInSlice(s: string, a: int, b: int, pat: string, j: int)
    requires 0 <= a <= b <= |s|
    requires OccursAt(s[a..b], pat, j)
    ensures OccursAt(s, pat, a + j)
  {
    var t := s[a..b];
    assert forall x :: j <= x < j + |pat| ==> t[x] == s[a + x];
    assert t[j..j + |pat|] == s[a + j..a + j + |pat|];
  }

  /** A slice of a string that does not contain `pat` does not contain it either. */
  lemma SliceKeepsAbsence(s: string, a: int, b: int, pat: string)
    requires 0 <= a <= b <= |s|
    requires !Contains(s, pat)
    ensures !Contains(s[a..b], pat)
  {
    if Contains(s[a..b], pat) {
      var j := IndexOf(s[a..b], pat).value;
      OccursInSlice(s, a, b, pat, j);
      assert false;
    }
  }

  /** An occurrence survives putting text before and after the string. */
  lemma ContainsInContext(p: string, s: string, q: string, pat: string)
    requires Contains(s, pat)
    ensures Contains(p + s + q, pat)
  {
    var i := IndexOf(s, pat).value;
    var t := p + s + q;
    assert t[|p|..|p| + |s|] == s;
    OccursInSlice(t, |p|, |p| + |s|, pat, i);
  }

  // ---------------------------------------------------------------------------
  // str.split(sep)
  // ---------------------------------------------------------------------------

  /** `sep.join(parts)`. */
  function Join(parts: seq<string>, sep: string): string
    requires |parts| >= 1
  {
    if |parts| == 1 then parts[0] else parts[0] + sep + Join(parts[1..], sep)
  }

  /**
   Python's `s.split(sep)` for a non-empty separator: cut `s` at every
   occurrence of `sep`, scanning left to right without overlaps.
   */
  function Split(s: string, sep: string): (parts: seq<string>)
    requires |sep| > 0
    ensures |parts| >= 1
    ensures |parts| >= 2 <==> Contains(s, sep)
    ensures forall k :: 0 <= k < |parts| ==> !Contains(parts[k], sep)
    decreases |s|
  {
    match IndexOf(s, sep)
    case None => [s]
    case Some(i) =>
      var tail := Split(s[i + |sep|..], sep);
      TakeUntilLacks(s, sep);
      [s[..i]] + tail
  }

  /** Joining the pieces of a split with the separator gives back the original string. */
  lemma {:induction false} SplitJoin(s: string, sep: string)
    requires |sep| > 0
    ensures Join(Split(s, sep), sep) == s
    decreases |s|
  {
    match IndexOf(s, sep)
    case None =>
    case Some(i) =>
      var rest := s[i + |sep|..];
      SplitJoin(rest, sep);
      SplitUnfold(s, sep, i);
      JoinCons(s[..i], Split(rest, sep), sep);
      assert s[i..i + |sep|] == sep;
      assert s == s[..i] + s[i..i + |sep|] + rest;
  }

  /** One step of a split: the piece before the first separator, then the split of the remainder. */
  lemma SplitUnfold(s: string, sep: string, i: nat)
    requires |sep| > 0
    requires IndexOf(s, sep) == Some(i)
    ensures Split(s, sep) == [s[..i]] + Split(s[i + |sep|..], sep)
  {
  }

  lemma JoinCons(p: string, parts: seq<string>, sep: string)
    requires |parts| >= 1
    ensures Join([p] + parts, sep) == p + sep + Join(parts, sep)
  {
    assert ([p] + parts)[1..] == parts;
  }

  /** The text before the first occurrence of `pat` (all of `s` when it does not occur). */
  function TakeUntil(s: string, pat: string): (r: string)
    ensures r <= s
    ensures !Contains(s, pat) ==> r == s
    ensures Contains(s, pat) ==> OccursAt(s, pat, |r|)
    ensures Contains(s, pat) ==> forall j :: 0 <= j < |r| ==> !OccursAt(s, pat, j)
  {
    match IndexOf(s, pat)
    case None => s
    case Some(i) => s[..i]
  }

  /** The text before the first occurrence of `pat` does not contain `pat`. */
  lemma TakeUntilLacks(s: string, pat: string)
    requires |pat| > 0
    ensures !Contains(TakeUntil(s, pat), pat)
  {
    var r := TakeUntil(s, pat);
    if Contains(r, pat) {
      var j := IndexOf(r, pat).value;
      assert s[0..|r|] == r;
      OccursInSlice(s, 0, |r|, pat, j);
      assert false;
    }
  }

  /** `s.split(sep)[0]` is the text before the first separator. */
  lemma SplitFirst(s: string, sep: string)
    requires |sep| > 0
    ensures Split(s, sep)[0] == TakeUntil(s, sep)
  {
  }

  /**
   When the separator occurs at `i` first, `s.split(sep)[1]` is the text after
   it up to the next separator.
   */
  lemma SplitSecond(s: string, sep: string, i: nat)
    requires |sep| > 0
    requires IndexOf(s, sep) == Some(i)
    ensures Split(s, sep)[1] == TakeUntil(s[i + |sep|..], sep)
  {
    var rest := s[i + |sep|..];
    SplitUnfold(s, sep, i);
    SplitFirst(rest, sep);
  }

  // ---------------------------------------------------------------------------
  // str.strip()
  // ---------------------------------------------------------------------------

  /** Python's `str.isspace()` for one character. */
  predicate IsSpace(c: char) {
    || ('\t' <= c <= '\r')
    || ('\U{1C}' <= c <= ' ')
    || c == '\U{85}' || c == '\U{A0}' || c == '\U{1680}'
    || ('\U{2000}' <= c <= '\U{200A}')
    || c == '\U{2028}' || c == '\U{2029}' || c == '\U{202F}' || c == '\U{205F}' || c == '\U{3000}'
  }

  /** `s.lstrip()`: drop the leading whitespace. */
  function StripLeft(s: string): (r: string)
    ensures |r| <= |s| && r == s[|s| - |r|..]
    ensures forall k :: 0 <= k < |s| - |r| ==> IsSpace(s[k])
    ensures r == [] || !IsSpace(r[0])
    decreases |s|
  {
    if |s| > 0 && IsSpace(s[0]) then StripLeft(s[1..]) else s
  }

  /** `s.rstrip()`: drop the trailing whitespace. */
  function StripRight(s: string): (r: string)
    ensures |r| <= |s| && r == s[..|r|]
    ensures forall k :: |r| <= k < |s| ==> IsSpace(s[k])
    ensures r == [] || !IsSpace(r[|r| - 1])
    decreases |s|
  {
    if |s| > 0 && IsSpace(s[|s| - 1]) then StripRight(s[..|s| - 1]) else s
  }

  /** `s.strip()`: drop the leading and the trailing whitespace. */
  function Strip(s: string): (r: string)
    ensures r == [] || (!IsSpace(r[0]) && !IsSpace(r[|r| - 1]))
  {
    StripRight(StripLeft(s))
  }

  /** `r` is `s` with `a` whitespace characters cut from the front and only whitespace cut from the back. */
  predicate TrimmedAt(s: string, r: string, a: int) {
    && 0 <= a <= |s| - |r|
    && r == s[a..a + |r|]
    && (forall k :: 0 <= k < a ==> IsSpace(s[k]))
    && (forall k :: a + |r| <= k < |s| ==> IsSpace(s[k]))
  }

  /** Stripping only removes whitespace, from the two ends: what remains is a slice of the input. */
  lemma StripTrims(s: string)
    ensures exists a :: TrimmedAt(s, Strip(s), a)
  {
    var l := StripLeft(s);
    var a := |s| - |l|;
    var r := StripRight(l);
    assert r == s[a..a + |r|];
    assert r == Strip(s);
    assert 0 <= a <= |s| - |r|;
    assert forall k :: 0 <= k < a ==> IsSpace(s[k]);
    forall k | a + |r| <= k < |s|
      ensures IsSpace(s[k])
    {
      assert s[k] == l[k - a];
    }
    assert TrimmedAt(s, r, a);
  }

  /** Stripping keeps a contiguous slice of the input, so it introduces no new occurrence of a pattern. */
  lemma StripKeepsAbsence(s: string, pat: string)
    requires !Contains(s, pat)
    ensures !Contains(Strip(s), pat)
  {
    var l := StripLeft(s);
    SliceKeepsAbsence(s, |s| - |l|, |s|, pat);
    assert l == s[|s| - |l|..|s|];
    SliceKeepsAbsence(l, 0, |StripRight(l)|, pat);
  }

  // ---------------------------------------------------------------------------
  // str.lower()
  // ---------------------------------------------------------------------------

  /**
   Python's lower-case mapping for one character, for the scripts the service
   sees: ASCII, Latin-1 and the basic Cyrillic block (А-Я and Ѐ-Џ).
   */
  function LowerChar(c: char): char {
    if 'A' <= c <= 'Z' then (c as int + 32) as char
    else if '\U{C0}' <= c <= '\U{DE}' && c != '\U{D7}' then (c as int + 32) as char
    else if '\U{410}' <= c <= '\U{42F}' then (c as int + 32) as char
    else if '\U{400}' <= c <= '\U{40F}' then (c as int + 80) as char
    else c
  }

  /** `s.lower()`, character by character. */
  function Lower(s: string): (r: string)
    ensures |r| == |s|
    ensures forall k :: 0 <= k < |s| ==> r[k] == LowerChar(s[k])
  {
    seq(|s|, k requires 0 <= k < |s| => LowerChar(s[k]))
  }

  /** The capital letters `LowerChar` changes, and their small letters at the same positions. */
  const AsciiCapitals: string := "ABCDEFGHIJKLMNOPQRSTUVWXYZ"
  const AsciiSmall: string := "abcdefghijklmnopqrstuvwxyz"
  const Latin1Capitals: string := "ÀÁÂÃÄÅÆÇÈÉÊËÌÍÎÏÐÑÒÓÔÕÖØÙÚÛÜÝÞ"
  const Latin1Small: string := "àáâãäåæçèéêëìíîïðñòóôõöøùúûüýþ"
  const CyrillicCapitals: string := "АБВГДЕЖЗИЙКЛМНОПРСТУФХЦЧШЩЪЫЬЭЮЯ"
  const CyrillicSmall: string := "абвгдежзийклмнопрстуфхцчшщъыьэюя"
  const CyrillicExtraCapitals: string := "ЀЁЂЃЄЅІЇЈЉЊЋЌЍЎЏ"
  const CyrillicExtraSmall: string := "ѐёђѓєѕіїјљњћќѝўџ"

  /** Each Latin capital becomes the small letter at its position. */
  lemma LowerAsciiTable()
    ensures |AsciiCapitals| == |AsciiSmall|
    ensures forall k :: 0 <= k < |AsciiCapitals| ==> LowerChar(AsciiCapitals[k]) == AsciiSmall[k]
  {
  }

  /** Each Latin-1 capital becomes the small letter at its position. */
  lemma LowerLatin1Table()
    ensures |Latin1Capitals| == |Latin1Small|
    ensures forall k :: 0 <= k < |Latin1Capitals| ==> LowerChar(Latin1Capitals[k]) == Latin1Small[k]
  {
  }

  /** Each Cyrillic capital А-Я becomes the small letter at its position. */
  lemma LowerCyrillicTable()
    ensures |CyrillicCapitals| == |CyrillicSmall|
    ensures forall k :: 0 <= k < |CyrillicCapitals| ==> LowerChar(CyrillicCapitals[k]) == CyrillicSmall[k]
  {
  }

  /** Each Cyrillic capital Ѐ-Џ becomes the small letter at its position. */
  lemma LowerCyrillicExtraTable()
    ensures |CyrillicExtraCapitals| == |CyrillicExtraSmall|
    ensures forall k :: 0 <= k < |CyrillicExtraCapitals| ==> LowerChar(CyrillicExtraCapitals[k]) == CyrillicExtraSmall[k]
  {
  }

  /** Every character outside the four capital alphabets is left alone. */
  lemma LowerLeavesOthers(c: char)
    requires c !in AsciiCapitals && c !in Latin1Capitals
    requires c !in CyrillicCapitals && c !in CyrillicExtraCapitals
    ensures LowerChar(c) == c
  {
  }

  /** Lower-casing twice is lower-casing once. */
  lemma LowerIdempotent(s: string)
    ensures Lower(Lower(s)) == Lower(s)
  {
  }

  /** The words the service tests in lower case come out of capitals as expected. */
  lemma LowerKnownWords()
    ensures Lower("UNAUTHORIZED") == "unauthorized" && Lower("Unauthorized") == "unauthorized"
    ensures Lower("ПЛАН") == "план" && Lower("План") == "план"
    ensures Lower("СМЕТ") == "смет" && Lower("БЮДЖЕТ") == "бюджет"
    ensures Lower("create_event_plan") == "create_event_plan"
  {
  }

  /** Lower-casing works piece by piece. */
  lemma LowerConcat(a: string, b: string)
    ensures Lower(a + b) == Lower(a) + Lower(b)
  {
    assert forall k :: 0 <= k < |a + b| ==> Lower(a + b)[k] == (Lower(a) + Lower(b))[k];
  }

  // ---------------------------------------------------------------------------
  // str(n) for integers
  // ---------------------------------------------------------------------------

  function DigitChar(d: nat): (c: char)
    requires d < 10
    ensures '0' <= c <= '9'
  {
    ('0' as int + d) as char
  }

  /** The value of a string of decimal digits. */
  function DigitsValue(s: string): nat
    requires forall k :: 0 <= k < |s| ==> '0' <= s[k] <= '9'
  {
    if |s| == 0 then 0 else 10 * DigitsValue(s[..|s| - 1]) + (s[|s| - 1] as int - '0' as int)
  }

  /** `str(n)` for a non-negative integer: its decimal digits, most significant first, no leading zero. */
  function NatToDecimal(n: nat): (r: string)
    ensures |r| >= 1
    ensures forall k :: 0 <= k < |r| ==> '0' <= r[k] <= '9'
    ensures |r| > 1 ==> r[0] != '0'
    decreases n
  {
    if n < 10 then [DigitChar(n)] else NatToDecimal(n / 10) + [DigitChar(n % 10)]
  }

  /** Reading back the digits `str(n)` produced gives `n`. */
  lemma {:induction false} NatToDecimalValue(n: nat)
    ensures DigitsValue(NatToDecimal(n)) == n
    decreases n
  {
    if n >= 10 {
      NatToDecimalValue(n / 10);
      var r := NatToDecimal(n);
      assert r[..|r| - 1] == NatToDecimal(n / 10);
    }
  }

  /** `str(n)` for any integer. */
  function IntToDecimal(n: int): (r: string)
    ensures n < 0 <==> (|r| > 0 && r[0] == '-')
  {
    if n < 0 then "-" + NatToDecimal(-n) else NatToDecimal(n)
  }
}

=== FILE: wrappers.dfy ===
/** Small failure-carrying datatypes shared by every module of the model. */
module Wrappers {

  /** A value that may be missing: a dictionary lookup, a search that found nothing. */
  datatype Option<+T> = None | Some(value: T) {

    /** The carried value, or `default` when there is none (Python's `d.get(k, default)`). */
    function GetOr(default: T): T {
      match this
      case Some(v) => v
      case None => default
    }
  }

  /** The outcome of a Python call that either returns a value or raises an exception carrying a message. */
  datatype Result<+T, +E> = Success(value: T) | Failure(error: E)
}
